=== FILE: README.md ===
# Homework status bot — a Dafny model of its polling logic

The bot asks the review API which homeworks changed status since a cursor
timestamp, and sends one chat notification per changed homework. This project
models its decision logic as pure Dafny functions over decoded JSON values
and proves properties of them. It covers:

- validation of the API reply (`check_response`);
- translation of one homework record into its notification text through the
  three-entry verdict table (`parse_status`, `VERDICTS`);
- the start-up token check (`check_tokens`);
- the `from_date` fallback of a request (`current_timestamp or now`);
- one pass of the `main` loop as a step over (cursor, clock, API reply, chat
  transport), and a finite run of such passes.

Python exceptions are `PyError` values carrying the exact messages the code
raises (`results.dfy`). JSON values and the Python semantics the code applies
to them (truthiness, `dict.get`, `str()`) are in `json.dfy`. The functions of
`homework.py` are in `homework.dfy`, and the main loop is in `polling.dfy`.

The collaborators are inputs. The HTTP request is a `FetchResult`: a decoded
body, a non-200 status, a connection error, or any other exception with its
text. The chat transport is a `Transport`, which gives the outcome of the n-th
send attempt of a pass. The clock reading is an `int` per pass. The
environment tokens are `Option<string>` values.

## Model

| member | source | states |
|---|---|---|
| `Homework.CheckResponse` | homework.py:54-63 | a reply is accepted exactly when it is an object whose `homeworks` value is a list, and then that list is returned |
| `Homework.CheckResponseErrors` | homework.py:56-62 | a non-object fails with the "not a dict" type error; a missing or null `homeworks` fails with the key error; a present non-list `homeworks` fails with the "not a list" type error |
| `Homework.CheckResponseReturnsStoredList` | homework.py:58-63 | for any object, the list stored under `homeworks` comes back unchanged, the empty list included |
| `Homework.CheckResponseAcceptsOnlyStoredList` | homework.py:56-63 | a reply that validates is an object holding the returned list under `homeworks`, so the reply is rebuilt from its fields and that list |
| `Homework.ParseStatus` | homework.py:66-77 | translation succeeds exactly for an object with a non-null name and a status string of the verdict table; the text is the fixed prefix, the rendered name, `". "` and that status's verdict |
| `Homework.ParseStatusErrors` | homework.py:67-75 | the error raised follows the order of the checks: `.get` on a non-object gives the AttributeError; then a missing name gives the name KeyError; then a missing status gives the status KeyError, a list or object status the "unhashable type" TypeError for its type, and a boolean, number or unknown string the unknown-status KeyError |
| `Homework.NameCheckedBeforeStatus` | homework.py:68-70 | a record without a usable name fails with the name key error whatever its status holds |
| `Homework.StatusDecidesTranslation` | homework.py:71-76 | once a name is present, a status string is accepted iff it is one of approved, reviewing and rejected; an unknown or null status is a key error |
| `Homework.ReadNoticeSound` | homework.py:76-77 | any text that reads back as (name, status) is exactly the notification built from that name and a status of the table |
| `Homework.NoticeReadsBack` | homework.py:76-77 | every notification reads back as the rendered name and the status of its homework, so the verdict part identifies the status |
| `Homework.SameNoticeIffSameNameAndStatus` | homework.py:76-77 | two homeworks give the same notification iff their statuses are equal and their names render alike |
| `Homework.CheckTokens` | homework.py:80-89 | the check passes iff all three tokens are set |
| `Homework.EmptyTokensPass` | homework.py:82-89 | only presence is tested: three empty tokens pass the check |
| `Homework.FromDate` | homework.py:38 | a truthy cursor is sent as `from_date`; `None`, `0` and other falsy cursors are replaced by the clock reading |
| `JsonValues.Get` | homework.py:58 | `dict.get` returns the stored value and yields `None` exactly when the key is absent or maps to `null` |
| `Polling.Truthies` | homework.py:114-115 | the entries that `if homework:` lets through are no more than the entries of the list |
| `Polling.TruthiesMembers` | homework.py:114-115 | an entry is let through iff it is in the list and truthy |
| `Polling.TruthiesAppend` | homework.py:114-115 | filtering distributes over concatenation, so list order is kept |
| `Polling.TruthiesOfTruthy` | homework.py:114-115 | a list without falsy entries is let through whole |
| `Polling.FetchError` | homework.py:47-51 | a failed fetch raises an exception that is never a `KeyError`, `TypeError` or `AttributeError` of the reply checks, so the failure report carries its message unquoted; a foreign exception keeps its own text (the bot's two messages are the constants `EndpointDownMessage` and `ConnectionMessage`) |
| `Polling.Dispatch` | homework.py:114-119 | the loop delivers at most one message per entry; when nothing raises, every send attempt delivered a message; when something raises, at most one send attempt (the failing one) went beyond the delivered messages (the order and the stopping point are stated by `DispatchStopsAtFirstFailure` and `DispatchSeesOnlyTruthy`) |
| `Polling.DispatchStopsAtFirstFailure` | homework.py:114-119 | the loop delivers the translations of a prefix of the truthy entries, in order; it stops exactly at the first entry whose translation or send raises, with that exception; without a failure every truthy entry is notified |
| `Polling.DispatchSeesOnlyTruthy` | homework.py:114-115 | running the loop over the list or over its truthy entries alone gives the same result |
| `Polling.Fail` | homework.py:127-131 | the general handler keeps the cursor; it adds the failure report when that send succeeds, and otherwise ends the process (`Crashed`) with the original exception and the report's own exception, adding no message |
| `Polling.ReportAfterFailure` | homework.py:114-131 | after the homework loop stops at a failing entry, the report of its exception is the next send attempt, and it is present exactly when the transport delivers that attempt |
| `Polling.Iterate` | homework.py:111-131 | a pass requests from `FromDate(cursor, now)`; a completed pass sets the cursor to the reply's `current_date` (`None` when absent); any other pass leaves the cursor unchanged |
| `Polling.IterateNotifiesInOrder` | homework.py:113-121 | a pass over a valid reply completes iff every truthy entry translates and is delivered; it then sends exactly their notifications, one per entry, in list order |
| `Polling.IterateFailsFast` | homework.py:112-131 | a pass over a valid reply that does not complete has sent the notifications of the truthy entries before the first failing one, none for that entry or later ones, then the failure report exactly when the transport delivers the send attempt after the last one made; the cursor is unchanged |
| `Polling.IterateRejectsBadReply` | homework.py:111-131 | a failed fetch or an invalid reply notifies no homework: the only message is the failure report of that exception, when it can be sent; the cursor is unchanged |
| `Polling.FalsyEntryIgnored` | homework.py:114-115 | inserting a falsy entry (`null`, `{}`, `[]`, `""`, `0`, `false`) anywhere in `homeworks` leaves the pass identical |
| `Polling.NextRequestAfterCompletedPass` | homework.py:121 | after a completed pass the next request uses the reply's `current_date` when it is truthy, and the next clock reading when it is falsy or absent |
| `Polling.NextRequestAfterFailedPass` | homework.py:127-134 | after a failed pass the next request is computed from the same cursor as before |
| `Polling.Loop` | homework.py:110-134 | a loop makes one request per tick unless it stops early, and it stops only after at least one request (that a crashing pass does stop it is `LoopEndsAtCrash`) |
| `Polling.LoopComposes` | homework.py:110-134 | a loop over `a + b` is the loop over `a` followed by the loop over `b` from the cursor `a` ends with, whenever the process survives `a` |
| `Polling.LoopStopsAtCrash` | homework.py:127-131 | a loop that stops early stops at a pass that crashes from the cursor its earlier passes left |
| `Polling.LoopEndsAtCrash` | homework.py:127-131 | conversely, a pass that crashes after a surviving prefix ends the loop: its request and its delivered messages are the last ones, and nothing after it is requested or sent |
| `Polling.LoopKeepsCursor` | homework.py:110-134 | when no pass moves the cursor, the cursor never changes and each request is the one made from the start cursor |
| `Polling.Run` | homework.py:107-134 | the main loop ends before its inputs run out only at a pass whose failure report cannot be sent; otherwise it makes one request per tick (that such a pass does end it is `RunEndsAtCrash`) |
| `Polling.RunEndsAtCrash` | homework.py:127-131 | a pass whose failure report cannot be sent ends the process: the run over any later ticks is the run up to that pass, with that pass's request and messages last |
| `Polling.RunComposes` | homework.py:110-134 | the main loop splits at any tick where the bot is still running, threading the cursor |
| `Polling.FailingPassesKeepCursor` | homework.py:110-134 | while no pass completes, the cursor stays at its start value, and every request uses that cursor or its own clock reading |
| `Polling.ClockFallbackUntilNextCompletedPass` | homework.py:112-121 | after a completed pass stores a falsy `current_date` as the cursor, the cursor stays falsy and every request until the next completed pass asks from its own clock reading, by the `or` fallback at homework.py:38 |
| `Polling.Start` | homework.py:100-110 | the bot exits before any request iff a token is unset; otherwise the first request is made from the start time |
| `Polling.SingleApprovedHomework` | homework.py:111-121 | one approved homework "A" with `current_date` 1000 gives exactly the notification for ("A", approved), the cursor becomes 1000, and the next request uses 1000 |

## Behaviour worth knowing

The model follows the code. The points below are where the code's behaviour
is easy to mistake for a more careful one.

- Cursor. The cursor is not kept when a reply has no `current_date`, and it
  is not kept from decreasing. The code assigns `response.get('current_date')`
  whatever it is (homework.py:121). An absent date makes the cursor `None`,
  and the next request then falls back to the clock (homework.py:38). A
  smaller or non-numeric date is taken as is.
- Failure report. The report about a failed pass is sent from inside the
  `except` clause (homework.py:129), so its own failure is not swallowed. If
  that send raises, the exception escapes `main` and ends the process:
  `Crashed` in the model.
- Delivery errors. A chat error does not stay a logged-only event. It goes
  through the general handler: the remaining homeworks are skipped, a failure
  report is attempted and the cursor is kept. The dedicated handler
  (homework.py:124-125) is never reached, as explained under Left out.
- Error kinds. The code raises `TypeError`, `KeyError` and `AttributeError`,
  not one schema error, and the model keeps them apart. A record that is not
  an object fails on `.get`. A list or object status fails with
  "unhashable type" when tested against the verdict table.
- A reply that is a JSON list is rejected outright. There is no unwrapping of
  a one-element list.
- An invalid reply sends no homework notification, but it does send the
  failure report.
- Texts are the Russian constants of the code.

## Left out

- The HTTP request and JSON decoding (homework.py:40-46, 49) are network
  I/O; their outcome is the `FetchResult` input. The exceptions the fetch
  raises with the bot's own messages (homework.py:47-48, 50-51) are modelled
  by `FetchError`.
- The Telegram transport and `send_message` (homework.py:30-33) belong to a
  foreign library. A send is an attempt whose outcome the `Transport` input
  decides.
- `load_dotenv` and `os.getenv` (homework.py:13-17) read the environment. The
  three tokens are parameters.
- Logging (homework.py:94-99, 101-106, 116-118, 120, 125, 130, 138-142) is
  observability only.
- `time.sleep` and `RETRY_TIME` (homework.py:19, 122, 131, 134) are timing
  only. `time.time()` (homework.py:38, 109) is a clock reading passed in.
- The endless `while True` (homework.py:110) is modelled as a run over a
  finite sequence of ticks.
- The `NoDeliveryMessage` handler (homework.py:124-125) is not modelled.
  homework.py:11 imports `NoDeliveryMessage`, but exceptions.py:13 defines
  `NoDelivaryMessage`, so the module as written fails at import. Nothing in
  `send_message` raises that exception in any case. The model assumes the
  import resolves and models the general handler instead.
- Polling.Start: does not model `telegram.Bot` rejecting a malformed token
  when it is constructed (homework.py:108). That would end the process before
  the first request.
- Homework.ParseStatus: a `homework_name` that is a list or an object is
  rendered as a fixed placeholder instead of Python's `repr`. Dict key order
  is not part of the JSON model.
- JSON numbers with a fraction or an exponent (Python floats) are not part
  of the `Json` datatype.
- Results.Render: the quotes around a `KeyError` message are exact only for
  messages without quote or backslash characters. Every `KeyError` the bot
  raises has such a message.

=== FILE: homework.dfy ===
/**
  The pure functions of the bot: validating the API reply, turning one
  homework record into a notification, checking the three tokens, and
  choosing the `from_date` of the next request.
 */
module Homework {
  import opened Results
  import opened JsonValues

  /** The verdict table: a review status and the text sent for it. */
  const Verdicts: map<string, string> := map[
    "approved" := "Работа проверена: ревьюеру всё понравилось. Ура!",
    "reviewing" := "Работа взята на проверку ревьюером.",
    "rejected" := "Работа проверена: у ревьюера есть замечания."
  ]

  // Messages of the exceptions the validation raises.
  const NotDictMessage := "API передал не словарь"
  const NoHomeworksMessage := "API не содержит ключа homeworks"
  const NotListMessage := "Содержимое не список"
  const NoNameMessage := "В ответе API нет ключа homework_name"
  const NoStatusMessage := "В ответе API нет ключа homework_status"
  const UnknownStatusMessage := "Неизвестный статус домашней работы"

  // The fixed parts of a status notification.
  const NoticePrefix := "Изменился статус проверки работы \""
  const NoticeSeparator := "\". "

  /** The notification text for a homework rendered as `name` with review
      status `status`. */
  function Notice(name: string, status: string): string
    requires status in Verdicts
  {
    NoticePrefix + name + NoticeSeparator + Verdicts[status]
  }

  // ---------------------------------------------------------------------
  // check_response
  // ---------------------------------------------------------------------

  /** Validates a decoded API reply and returns its `homeworks` list. A
      non-object fails with a type error, a missing or null `homeworks` with
      a key error, a `homeworks` that is not a list with a type error. */
  function CheckResponse(response: Json): (r: Result<seq<Json>>)
    ensures r.Ok? <==>
      response.JDict? && "homeworks" in response.fields && response.fields["homeworks"].JList?
    ensures r.Ok? ==> r.value == response.fields["homeworks"].items
  {
    if !response.JDict? then Err(TypeError(NotDictMessage))
    else
      var homework := Get(response.fields, "homeworks");
      if homework == JNull then Err(KeyError(NoHomeworksMessage))
      else if !homework.JList? then Err(TypeError(NotListMessage))
      else Ok(homework.items)
  }

  /** The three ways a reply is rejected, each with its own exception: a
      non-object is a type error, a missing or null `homeworks` a key error,
      and a `homeworks` that is present but not a list a type error. */
  lemma CheckResponseErrors(response: Json)
    ensures !response.JDict? ==> CheckResponse(response) == Err(TypeError(NotDictMessage))
    ensures response.JDict? && ("homeworks" !in response.fields || response.fields["homeworks"] == JNull)
      ==> CheckResponse(response) == Err(KeyError(NoHomeworksMessage))
    ensures response.JDict? && "homeworks" in response.fields
      && !response.fields["homeworks"].JNull? && !response.fields["homeworks"].JList?
      ==> CheckResponse(response) == Err(TypeError(NotListMessage))
  {
  }

  /** Any list stored under `homeworks` of any object comes back unchanged,
      the empty list included. */
  lemma CheckResponseReturnsStoredList(fields: map<string, Json>, homeworks: seq<Json>)
    ensures CheckResponse(JDict(fields["homeworks" := JList(homeworks)])) == Ok(homeworks)
  {
  }

  /** Conversely, a reply that validates is an object holding the returned
      list under `homeworks`, so it is rebuilt from its fields and that list. */
  lemma CheckResponseAcceptsOnlyStoredList(response: Json, homeworks: seq<Json>)
    requires CheckResponse(response) == Ok(homeworks)
    ensures response.JDict?
    ensures response == JDict(response.fields["homeworks" := JList(homeworks)])
  {
  }

  // ---------------------------------------------------------------------
  // parse_status
  // ---------------------------------------------------------------------

  /** A homework record the translation accepts: an object with a non-null
      `homework_name` and a `status` string that the verdict table knows. */
  predicate Reportable(h: Json)
  {
    && h.JDict?
    && "homework_name" in h.fields && h.fields["homework_name"] != JNull
    && "status" in h.fields && h.fields["status"].JStr? && h.fields["status"].s in Verdicts
  }

  /** Translates one homework record into its notification text. The checks
      run in order: the record must support `.get` (an object), then the name,
      then the status must be present, then known. Testing membership of a
      list or object status in the verdict table raises Python's
      "unhashable type" error. */
  function ParseStatus(homework: Json): (r: Result<string>)
    ensures r.Ok? <==> Reportable(homework)
    ensures r.Ok? ==> r.value == Notice(PyStr(homework.fields["homework_name"]), homework.fields["status"].s)
  {
    if !homework.JDict? then
      Err(AttributeError("'" + TypeName(homework) + "' object has no attribute 'get'"))
    else
      var name := Get(homework.fields, "homework_name");
      if name == JNull then Err(KeyError(NoNameMessage))
      else
        var status := Get(homework.fields, "status");
        if status == JNull then Err(KeyError(NoStatusMessage))
        else if status.JList? then Err(TypeError("unhashable type: 'list'"))
        else if status.JDict? then Err(TypeError("unhashable type: 'dict'"))
        else if !(status.JStr? && status.s in Verdicts) then Err(KeyError(UnknownStatusMessage))
        else Ok(Notice(PyStr(name), status.s))
  }

  /** The exceptions of the translation, by the first check that fails: no
      `.get` on a non-object; then a missing name; then a missing status,
      a status that cannot be hashed, or an unknown one. Only these occur. */
  lemma ParseStatusErrors(homework: Json)
    ensures !homework.JDict? ==>
      ParseStatus(homework) == Err(AttributeError("'" + TypeName(homework) + "' object has no attribute 'get'"))
    ensures homework.JDict? && Get(homework.fields, "homework_name") == JNull ==>
      ParseStatus(homework) == Err(KeyError(NoNameMessage))
    ensures homework.JDict? && Get(homework.fields, "homework_name") != JNull && Get(homework.fields, "status") == JNull
      ==> ParseStatus(homework) == Err(KeyError(NoStatusMessage))
    ensures homework.JDict? && Get(homework.fields, "homework_name") != JNull && Get(homework.fields, "status").JList?
      ==> ParseStatus(homework) == Err(TypeError("unhashable type: 'list'"))
    ensures homework.JDict? && Get(homework.fields, "homework_name") != JNull && Get(homework.fields, "status").JDict?
      ==> ParseStatus(homework) == Err(TypeError("unhashable type: 'dict'"))
    ensures var st := if homework.JDict? then Get(homework.fields, "status") else JNull;
      homework.JDict? && Get(homework.fields, "homework_name") != JNull
      && (st.JBool? || st.JInt? || (st.JStr? && st.s !in Verdicts))
      ==> ParseStatus(homework) == Err(KeyError(UnknownStatusMessage))
  {
  }

  /** A record without a usable name is reported as such whatever its status
      says: the name is checked before anything about the status. */
  lemma NameCheckedBeforeStatus(fields: map<string, Json>, status: Json)
    requires Get(fields, "homework_name") == JNull
    ensures ParseStatus(JDict(fields["status" := status])) == Err(KeyError(NoNameMessage))
  {
  }

  /** A missing or null status and an unknown status string are both key
      errors; every known status string is accepted once a name is present. */
  lemma StatusDecidesTranslation(fields: map<string, Json>, status: string)
    requires Get(fields, "homework_name") != JNull
    ensures ParseStatus(JDict(fields["status" := JStr(status)])).Ok? <==> status in Verdicts
    ensures status !in Verdicts ==>
      ParseStatus(JDict(fields["status" := JStr(status)])) == Err(KeyError(UnknownStatusMessage))
    ensures ParseStatus(JDict(fields["status" := JNull])) == Err(KeyError(NoStatusMessage))
  {
  }

  // ---------------------------------------------------------------------
  // Reading a notification back
  // ---------------------------------------------------------------------

  /** The statuses of the verdict table, in the order they are tried when a
      notification is read back. */
  const StatusOrder: seq<string> := ["approved", "reviewing", "rejected"]

  /** The text that closes a notification for `status`. */
  function Closing(status: string): string
    requires status in Verdicts
  {
    NoticeSeparator + Verdicts[status]
  }

  predicate EndsWith(s: string, suffix: string)
  {
    |suffix| <= |s| && s[|s| - |suffix|..] == suffix
  }

  /** Splits the text after the prefix into the name and the status whose
      closing text ends it, trying `statuses` in order. */
  function SplitClosing(rest: string, statuses: seq<string>): Option<(string, string)>
    requires forall i :: 0 <= i < |statuses| ==> statuses[i] in Verdicts
  {
    if statuses == [] then None
    else if EndsWith(rest, Closing(statuses[0])) then
      Some((rest[..|rest| - |Closing(statuses[0])|], statuses[0]))
    else SplitClosing(rest, statuses[1..])
  }

  /** Recovers the rendered name and the status from a notification text;
      `None` for any text that no homework translates to. */
  function ReadNotice(message: string): Option<(string, string)>
  {
    match StripPrefix(message, NoticePrefix)
    case None => None
    case Some(rest) => SplitClosing(rest, StatusOrder)
  }

  /** The text after `prefix`, when `s` starts with it. */
  function StripPrefix(s: string, prefix: string): (r: Option<string>)
    ensures r.Some? ==> s == prefix + r.value
  {
    if |prefix| <= |s| && s[..|prefix|] == prefix then Some(s[|prefix|..]) else None
  }

  lemma StripPrefixOf(prefix: string, rest: string)
    ensures StripPrefix(prefix + rest, prefix) == Some(rest)
  {
    assert (prefix + rest)[..|prefix|] == prefix;
    assert (prefix + rest)[|prefix|..] == rest;
  }

  /** Whatever reads back is a status of the table and the notification of
      that status for the name read. */
  lemma ReadNoticeSound(message: string)
    ensures var r := ReadNotice(message);
      r.Some? ==> r.value.1 in Verdicts && message == Notice(r.value.0, r.value.1)
  {
    var stripped := StripPrefix(message, NoticePrefix);
    if stripped.Some? {
      var rest := stripped.value;
      SplitClosingSound(rest, StatusOrder);
      var r := SplitClosing(rest, StatusOrder);
      if r.Some? {
        var name, status := r.value.0, r.value.1;
        assert rest == name + (NoticeSeparator + Verdicts[status]);
        ConcatAssoc(NoticePrefix, name, NoticeSeparator + Verdicts[status]);
        ConcatAssoc(NoticePrefix + name, NoticeSeparator, Verdicts[status]);
      }
    }
  }

  lemma EndsWithSplits(s: string, suffix: string)
    requires EndsWith(s, suffix)
    ensures s == s[..|s| - |suffix|] + suffix
  {
  }

  lemma {:induction false} SplitClosingSound(rest: string, statuses: seq<string>)
    requires forall i :: 0 <= i < |statuses| ==> statuses[i] in Verdicts
    ensures var r := SplitClosing(rest, statuses);
      r.Some? ==> r.value.1 in statuses && r.value.1 in Verdicts && rest == r.value.0 + Closing(r.value.1)
    decreases |statuses|
  {
    if statuses != [] {
      if EndsWith(rest, Closing(statuses[0])) {
        EndsWithSplits(rest, Closing(statuses[0]));
      } else {
        SplitClosingSound(rest, statuses[1..]);
      }
    }
  }

  /** The last two characters of each closing. */
  lemma ClosingEnd(status: string)
    requires status in Verdicts
    ensures var c := Closing(status);
      |c| >= 2 && c[|c| - 2..] == (if status == "approved" then "а!" else if status == "reviewing" then "м." else "я.")
  {
  }

  /** The closings of distinct statuses differ in their last two characters,
      so no text ends with two of them. */
  lemma ClosingsDisjoint(s: string, a: string, b: string)
    requires a in Verdicts && b in Verdicts && a != b
    requires EndsWith(s, Closing(a))
    ensures !EndsWith(s, Closing(b))
  {
    var ca, cb := Closing(a), Closing(b);
    ClosingEnd(a);
    ClosingEnd(b);
    assert s[|s| - 2..] == ca[|ca| - 2..] by {
      assert s[|s| - |ca|..][|ca| - 2..] == s[|s| - 2..];
    }
    if EndsWith(s, cb) {
      assert false;
    }
  }

  lemma {:induction false} SplitClosingFinds(name: string, status: string, statuses: seq<string>)
    requires forall i :: 0 <= i < |statuses| ==> statuses[i] in Verdicts
    requires status in statuses && status in Verdicts
    ensures SplitClosing(name + Closing(status), statuses) == Some((name, status))
    decreases |statuses|
  {
    var rest := name + Closing(status);
    assert EndsWith(rest, Closing(status)) by {
      assert rest[|rest| - |Closing(status)|..] == Closing(status);
    }
    if statuses[0] == status {
      assert rest[..|rest| - |Closing(status)|] == name;
    } else {
      ClosingsDisjoint(rest, status, statuses[0]);
      SplitClosingFinds(name, status, statuses[1..]);
    }
  }

  /** A notification text reads back as the name and status it was built from. */
  lemma NoticeTextReadsBack(name: string, status: string)
    requires status in Verdicts
    ensures ReadNotice(Notice(name, status)) == Some((name, status))
  {
    var m := Notice(name, status);
    ConcatAssoc(NoticePrefix, name, NoticeSeparator + Verdicts[status]);
    ConcatAssoc(NoticePrefix + name, NoticeSeparator, Verdicts[status]);
    StripPrefixOf(NoticePrefix, name + Closing(status));
    SplitClosingFinds(name, status, StatusOrder);
  }

  /** Every notification the translation produces reads back as the rendered
      name and the status of its homework. */
  lemma NoticeReadsBack(homework: Json)
    requires ParseStatus(homework).Ok?
    ensures ReadNotice(ParseStatus(homework).value)
      == Some((PyStr(homework.fields["homework_name"]), homework.fields["status"].s))
  {
    NoticeTextReadsBack(PyStr(homework.fields["homework_name"]), homework.fields["status"].s);
  }

  /** Two homeworks give the same notification exactly when their statuses
      agree and their names render alike; with equal statuses the texts differ
      only in the name segment. */
  lemma {:induction false} SameNoticeIffSameNameAndStatus(h1: Json, h2: Json)
    requires ParseStatus(h1).Ok? && ParseStatus(h2).Ok?
    ensures ParseStatus(h1) == ParseStatus(h2) <==>
      h1.fields["status"] == h2.fields["status"]
      && PyStr(h1.fields["homework_name"]) == PyStr(h2.fields["homework_name"])
  {
    NoticeReadsBack(h1);
    NoticeReadsBack(h2);
  }

  // ---------------------------------------------------------------------
  // check_tokens
  // ---------------------------------------------------------------------

  /** The three settings read from the environment; `None` is an unset
      variable, while an empty string is a set one. */
  datatype Tokens = Tokens(practicum: Option<string>, telegram: Option<string>, chatId: Option<string>)

  /** Clears a flag for every unset token, in turn. The bot starts only when
      all three are set; an empty value counts as set. */
  function CheckTokens(t: Tokens): (ok: bool)
    ensures ok <==> t.practicum.Some? && t.telegram.Some? && t.chatId.Some?
  {
    var ok0 := true;
    var ok1 := if t.practicum.None? then false else ok0;
    var ok2 := if t.telegram.None? then false else ok1;
    var ok3 := if t.chatId.None? then false else ok2;
    ok3
  }

  /** Only presence is checked: tokens set to empty strings let the bot start. */
  lemma EmptyTokensPass()
    ensures CheckTokens(Tokens(Some(""), Some(""), Some("")))
  {
  }

  // ---------------------------------------------------------------------
  // The from_date of a request
  // ---------------------------------------------------------------------

  /** `current_timestamp or int(time.time())`: a truthy cursor is sent as is;
      `None`, `0` and any other falsy cursor fall back to the current time. */
  function FromDate(cursor: Json, now: int): (from: Json)
    ensures Truthy(cursor) ==> from == cursor
    ensures !Truthy(cursor) ==> from == JInt(now)
    ensures Truthy(from) || now == 0
  {
    if Truthy(cursor) then cursor else JInt(now)
  }
}

=== FILE: json.dfy ===
/**
  Decoded JSON values together with the pieces of Python semantics the bot
  applies to them: truthiness (`if x:`, `x or y`), `dict.get`, `type(x).__name__`
  and `str(x)`.
 */
module JsonValues {

  /** A value as `json.loads` produces it. JSON object keys are always strings. */
  datatype Json =
    | JNull
    | JBool(b: bool)
    | JInt(n: int)
    | JStr(s: string)
    | JList(items: seq<Json>)
    | JDict(fields: map<string, Json>)

  /** Python's `bool(x)`: `None`, `False`, `0` and empty containers are false. */
  predicate Truthy(j: Json)
  {
    match j
    case JNull => false
    case JBool(b) => b
    case JInt(n) => n != 0
    case JStr(s) => s != ""
    case JList(xs) => xs != []
    case JDict(m) => m != map[]
  }

  /** Python's `d.get(key)`: the stored value, or `None` when the key is absent. */
  function Get(d: map<string, Json>, key: string): (v: Json)
    ensures key in d ==> v == d[key]
    ensures v == JNull <==> key !in d || d[key] == JNull
  {
    if key in d then d[key] else JNull
  }

  /** Python's `type(x).__name__` for a decoded JSON value. */
  function TypeName(j: Json): string
  {
    match j
    case JNull => "NoneType"
    case JBool(_) => "bool"
    case JInt(_) => "int"
    case JStr(_) => "str"
    case JList(_) => "list"
    case JDict(_) => "dict"
  }

  /** Decimal digits of a natural number, most significant first. */
  function Digits(n: nat): (s: string)
    ensures |s| >= 1
    ensures forall i :: 0 <= i < |s| ==> '0' <= s[i] <= '9'
  {
    var d := [(('0' as int) + n % 10) as char];
    if n < 10 then d else Digits(n / 10) + d
  }

  /** Python's `str(x)` as an f-string placeholder renders it. Exact for the
      scalar values; a list or an object renders as a fixed placeholder. */
  function PyStr(j: Json): string
  {
    match j
    case JNull => "None"
    case JBool(b) => if b then "True" else "False"
    case JInt(n) => if n < 0 then "-" + Digits(-n) else Digits(n)
    case JStr(s) => s
    case JList(_) => "[...]"
    case JDict(_) => "{...}"
  }

  /** Regrouping a concatenation; used wherever texts or traces are glued
      from parts. */
  lemma ConcatAssoc<T>(x: seq<T>, y: seq<T>, z: seq<T>)
    ensures x + (y + z) == (x + y) + z
  {
  }
}

=== FILE: polling.dfy ===
/**
  The main loop of the bot. One pass of the loop is the pure function
  `Iterate` over the cursor, the clock reading, the reply of the API and
  the chat transport; `Run` folds it over a finite sequence of passes, and
  `Start` adds the token check that precedes the loop.
 */
module Polling {
  import opened Results
  import opened JsonValues
  import opened Homework

  /** Outcome of one attempt to send a chat message. */
  datatype Delivery = Delivered | Undelivered(reason: string)

  /** The chat transport seen by one pass of the loop: the outcome of its
      n-th send attempt, counting from 0. */
  type Transport = nat -> Delivery

  /** What the HTTP request of one pass yields: a decoded body; a status code
      other than 200; Python's builtin `ConnectionError`, the only exception
      the fetch re-raises with the bot's own message; or any other exception
      of the client or the JSON decoder, with its text. The HTTP client's own
      connection error does not derive from the builtin class, so a lost
      connection escapes unwrapped and is a `Failed` value. */
  datatype FetchResult =
    | Fetched(body: Json)
    | NotOk
    | ConnectionLost
    | Failed(reason: string)

  const EndpointDownMessage := "Недоступность эндпоинта"
  const ConnectionMessage := "Сбой при запросе к эндпоинту"
  const FailurePrefix := "Сбой в работе программы: "

  /** The exception a failed fetch raises. A bad status code and a lost
      connection raise the bot's own messages, anything else passes through
      with its own text. None of them is one of the reply's validation
      errors, so each is reported with its message bare. */
  function FetchError(reply: FetchResult): (e: PyError)
    requires !reply.Fetched?
    ensures !e.KeyError? && !e.TypeError? && !e.AttributeError?
    ensures FailureReport(e) == FailurePrefix + e.message
    ensures reply.Failed? ==> e.message == reply.reason
  {
    match reply
    case NotOk => NotStatusOk(EndpointDownMessage)
    case ConnectionLost => ConnectionError(ConnectionMessage)
    case Failed(why) => External(why)
  }

  /** The message the bot sends about a failed pass. */
  function FailureReport(e: PyError): string
  {
    FailurePrefix + Render(e)
  }

  // ---------------------------------------------------------------------
  // The homework loop
  // ---------------------------------------------------------------------

  /** The entries of a list that `if homework:` lets through, in order. */
  function Truthies(hs: seq<Json>): (ts: seq<Json>)
    ensures |ts| <= |hs|
  {
    if hs == [] then []
    else if Truthy(hs[0]) then [hs[0]] + Truthies(hs[1..])
    else Truthies(hs[1..])
  }

  /** The filter keeps exactly the truthy entries. */
  lemma {:induction false} TruthiesMembers(hs: seq<Json>)
    ensures forall t :: t in Truthies(hs) <==> t in hs && Truthy(t)
    decreases |hs|
  {
    if hs != [] {
      TruthiesMembers(hs[1..]);
      assert hs == [hs[0]] + hs[1..];
    }
  }

  /** Filtering keeps the order of the list: it distributes over concatenation. */
  lemma {:induction false} TruthiesAppend(a: seq<Json>, b: seq<Json>)
    ensures Truthies(a + b) == Truthies(a) + Truthies(b)
    decreases |a|
  {
    if a == [] {
      assert a + b == b;
    } else {
      assert (a + b)[0] == a[0];
      assert (a + b)[1..] == a[1..] + b;
      TruthiesAppend(a[1..], b);
    }
  }

  /** A list without falsy entries is notified in full. */
  lemma {:induction false} TruthiesOfTruthy(hs: seq<Json>)
    requires forall i :: 0 <= i < |hs| ==> Truthy(hs[i])
    ensures Truthies(hs) == hs
    decreases |hs|
  {
    if hs != [] {
      TruthiesOfTruthy(hs[1..]);
    }
  }

  /** Result of the `for homework in homeworks` loop: the messages delivered,
      the index of the next send attempt, and the exception that ended the
      loop early, if any. */
  datatype Dispatched = Dispatched(sent: seq<string>, attempts: nat, fault: Option<PyError>)

  /** Runs the loop over `hs` with send attempts numbered from `k`: each
      truthy entry is translated and then sent; the first translation or
      send that raises ends the loop. */
  function Dispatch(hs: seq<Json>, tr: Transport, k: nat): (d: Dispatched)
    ensures |d.sent| <= |hs|
    ensures d.fault.None? ==> d.attempts == k + |d.sent|
    ensures d.fault.Some? ==> k + |d.sent| <= d.attempts <= k + |d.sent| + 1
    decreases |hs|
  {
    if hs == [] then Dispatched([], k, None)
    else if !Truthy(hs[0]) then Dispatch(hs[1..], tr, k)
    else
      match ParseStatus(hs[0])
      case Err(e) => Dispatched([], k, Some(e))
      case Ok(m) =>
        match tr(k)
        case Undelivered(why) => Dispatched([], k + 1, Some(External(why)))
        case Delivered =>
          var rest := Dispatch(hs[1..], tr, k + 1);
          Dispatched([m] + rest.sent, rest.attempts, rest.fault)
  }

  /** `t`, sent as send attempt `attempt`, fails, and `e` is what it raises. */
  predicate FailsWith(t: Json, tr: Transport, attempt: nat, e: PyError)
  {
    match ParseStatus(t)
    case Err(pe) => e == pe
    case Ok(_) => tr(attempt).Undelivered? && e == External(tr(attempt).reason)
  }

  /** What the loop does, stated against the truthy entries `ts` with send
      attempts numbered from `k`: the messages delivered are the translations
      of a prefix of `ts`, each sent successfully; the loop ends early exactly
      at the first entry whose translation or send fails, with that entry's
      exception; without a failure every truthy entry is notified. */
  ghost predicate StopsAtFirstFailure(d: Dispatched, ts: seq<Json>, tr: Transport, k: nat)
  {
    && |d.sent| <= |ts|
    && (forall i :: 0 <= i < |d.sent| ==> ParseStatus(ts[i]) == Ok(d.sent[i]) && tr(k + i) == Delivered)
    && (d.fault.None? <==> |d.sent| == |ts|)
    && (d.fault.None? ==> d.attempts == k + |ts|)
    && (d.fault.Some? && |d.sent| < |ts| ==>
         && FailsWith(ts[|d.sent|], tr, k + |d.sent|, d.fault.value)
         && d.attempts == k + |d.sent| + (if ParseStatus(ts[|d.sent|]).Ok? then 1 else 0))
  }

  /** A delivered first entry extends what the rest of the loop does. */
  lemma DeliveredHeadExtends(h: Json, m: string, rest: Dispatched, ts: seq<Json>, tr: Transport, k: nat)
    requires ParseStatus(h) == Ok(m) && tr(k) == Delivered
    requires StopsAtFirstFailure(rest, ts, tr, k + 1)
    ensures StopsAtFirstFailure(Dispatched([m] + rest.sent, rest.attempts, rest.fault), [h] + ts, tr, k)
  {
    var sent, ts' := [m] + rest.sent, [h] + ts;
    var d := Dispatched(sent, rest.attempts, rest.fault);
    forall i | 0 <= i < |sent|
      ensures ParseStatus(ts'[i]) == Ok(sent[i]) && tr(k + i) == Delivered
    {
      if i > 0 {
        assert ts'[i] == ts[i - 1] && sent[i] == rest.sent[i - 1];
        assert k + i == (k + 1) + (i - 1);
      }
    }
    assert d.fault.None? <==> |d.sent| == |ts'|;
    if d.fault.Some? && |d.sent| < |ts'| {
      var j := |rest.sent|;
      assert j < |ts|;
      assert ts'[|d.sent|] == ts[j];
      assert k + |d.sent| == (k + 1) + j;
      assert FailsWith(ts[j], tr, (k + 1) + j, rest.fault.value);
      assert FailsWith(ts'[|d.sent|], tr, k + |d.sent|, d.fault.value);
      assert d.attempts == k + |d.sent| + (if ParseStatus(ts'[|d.sent|]).Ok? then 1 else 0);
    }
  }

  /** The loop over any list stops at its first failing truthy entry. */
  lemma {:induction false} DispatchStopsAtFirstFailure(hs: seq<Json>, tr: Transport, k: nat)
    ensures StopsAtFirstFailure(Dispatch(hs, tr, k), Truthies(hs), tr, k)
    decreases |hs|
  {
    if hs == [] {
    } else if !Truthy(hs[0]) {
      DispatchStopsAtFirstFailure(hs[1..], tr, k);
    } else {
      assert Truthies(hs) == [hs[0]] + Truthies(hs[1..]);
      if ParseStatus(hs[0]).Ok? && tr(k).Delivered? {
        DispatchStopsAtFirstFailure(hs[1..], tr, k + 1);
        DeliveredHeadExtends(hs[0], ParseStatus(hs[0]).value, Dispatch(hs[1..], tr, k + 1), Truthies(hs[1..]), tr, k);
      }
    }
  }

  /** The loop only ever looks at the truthy entries: running it over the
      filtered list gives the same result. */
  lemma {:induction false} DispatchSeesOnlyTruthy(hs: seq<Json>, tr: Transport, k: nat)
    ensures Dispatch(hs, tr, k) == Dispatch(Truthies(hs), tr, k)
    decreases |hs|
  {
    if hs != [] {
      DispatchSeesOnlyTruthy(hs[1..], tr, k);
      DispatchSeesOnlyTruthy(hs[1..], tr, k + 1);
      if Truthy(hs[0]) {
        var ts := Truthies(hs);
        assert ts == [hs[0]] + Truthies(hs[1..]);
        assert ts[0] == hs[0] && ts[1..] == Truthies(hs[1..]);
      }
    }
  }

  // ---------------------------------------------------------------------
  // One pass of the main loop
  // ---------------------------------------------------------------------

  /** How a pass ended: the loop body finished; an exception was caught and
      reported; or the report itself could not be sent, so its exception
      escapes the handler and ends the process. */
  datatype Outcome =
    | Completed
    | Recovered(error: PyError)
    | Crashed(error: PyError, reportError: PyError)

  /** One pass: the `from_date` requested, the messages delivered in order,
      the cursor for the next pass, and how the pass ended. */
  datatype Step = Step(request: Json, sent: seq<string>, cursor: Json, outcome: Outcome)

  /** The general exception handler: try to send a report of `e` as send
      attempt `k`; the cursor is left as it was. */
  function Fail(request: Json, sent: seq<string>, cursor: Json, e: PyError, tr: Transport, k: nat): (s: Step)
    ensures s.request == request && s.cursor == cursor
    ensures s.outcome.Recovered? <==> tr(k).Delivered?
    ensures s.outcome.Recovered? ==> s.outcome.error == e && s.sent == sent + [FailureReport(e)]
    ensures s.outcome.Crashed? ==> s.outcome.error == e && s.sent == sent
    ensures !tr(k).Delivered? ==> s == Step(request, sent, cursor, Crashed(e, External(tr(k).reason)))
  {
    match tr(k)
    case Delivered => Step(request, sent + [FailureReport(e)], cursor, Recovered(e))
    case Undelivered(why) => Step(request, sent, cursor, Crashed(e, External(why)))
  }

  /** The body of `while True`: request homeworks since the cursor (or since
      now), validate the reply, notify each truthy homework, and on success
      take the reply's `current_date` as the new cursor, `None` when absent. */
  function Iterate(cursor: Json, now: int, reply: FetchResult, tr: Transport): (s: Step)
    ensures s.request == FromDate(cursor, now)
    ensures !s.outcome.Completed? ==> s.cursor == cursor
    ensures s.outcome.Completed? ==>
      reply.Fetched? && reply.body.JDict? && s.cursor == Get(reply.body.fields, "current_date")
  {
    var request := FromDate(cursor, now);
    match reply
    case Fetched(body) =>
      (match CheckResponse(body)
       case Err(e) => Fail(request, [], cursor, e, tr, 0)
       case Ok(hs) =>
         var d := Dispatch(hs, tr, 0);
         match d.fault
         case None => Step(request, d.sent, Get(body.fields, "current_date"), Completed)
         case Some(e) => Fail(request, d.sent, cursor, e, tr, d.attempts))
    case _ => Fail(request, [], cursor, FetchError(reply), tr, 0)
  }

  /** The truthy homework entries of a reply that validates. */
  function Pending(reply: FetchResult): seq<Json>
    requires reply.Fetched? && CheckResponse(reply.body).Ok?
  {
    Truthies(CheckResponse(reply.body).value)
  }

  /** Every truthy entry of the validated reply translates and is delivered,
      send attempt `i` carrying the `i`-th of them. */
  ghost predicate AllNotified(reply: FetchResult, tr: Transport)
    requires reply.Fetched? && CheckResponse(reply.body).Ok?
  {
    forall i :: 0 <= i < |Pending(reply)| ==> ParseStatus(Pending(reply)[i]).Ok? && tr(i) == Delivered
  }

  /** A pass over a valid reply completes exactly when every truthy entry
      translates and is delivered; it then sends their notifications, one per
      truthy entry and in list order, and nothing else. */
  lemma IterateNotifiesInOrder(cursor: Json, now: int, reply: FetchResult, tr: Transport)
    requires reply.Fetched? && CheckResponse(reply.body).Ok?
    ensures Iterate(cursor, now, reply, tr).outcome.Completed? <==> AllNotified(reply, tr)
    ensures var s, ts := Iterate(cursor, now, reply, tr), Pending(reply);
      s.outcome.Completed? ==>
        |s.sent| == |ts| && forall i :: 0 <= i < |ts| ==> ParseStatus(ts[i]) == Ok(s.sent[i])
  {
    DispatchStopsAtFirstFailure(CheckResponse(reply.body).value, tr, 0);
  }

  /** The general handler after the homework loop stopped at a failing
      entry: the report of that entry's exception is the next send attempt. */
  lemma ReportAfterFailure(d: Dispatched, ts: seq<Json>, tr: Transport, request: Json, cursor: Json)
    requires StopsAtFirstFailure(d, ts, tr, 0) && d.fault.Some?
    ensures var s := Fail(request, d.sent, cursor, d.fault.value, tr, d.attempts);
      var n := if s.outcome.Recovered? then |s.sent| - 1 else |s.sent|;
      && n == |d.sent| && 0 <= n < |ts|
      && (forall i :: 0 <= i < n ==> ParseStatus(ts[i]) == Ok(s.sent[i]) && tr(i) == Delivered)
      && FailsWith(ts[n], tr, n, s.outcome.error)
      && (s.outcome.Recovered? ==> s.sent[n] == FailureReport(s.outcome.error))
      && (s.outcome.Recovered? <==> tr(n + (if ParseStatus(ts[n]).Ok? then 1 else 0)) == Delivered)
  {
  }

  /** A pass over a valid reply that does not complete stops at the first
      failing truthy entry: it has sent the notifications of the entries
      before it and none for it or any later entry, followed by the failure
      report when that report could be delivered; the report is the send
      attempt after the last one made; the cursor is unchanged. */
  lemma IterateFailsFast(cursor: Json, now: int, reply: FetchResult, tr: Transport)
    requires reply.Fetched? && CheckResponse(reply.body).Ok?
    requires !Iterate(cursor, now, reply, tr).outcome.Completed?
    ensures var s, ts := Iterate(cursor, now, reply, tr), Pending(reply);
      var n := if s.outcome.Recovered? then |s.sent| - 1 else |s.sent|;
      && 0 <= n < |ts|
      && (forall i :: 0 <= i < n ==> ParseStatus(ts[i]) == Ok(s.sent[i]) && tr(i) == Delivered)
      && FailsWith(ts[n], tr, n, s.outcome.error)
      && (s.outcome.Recovered? ==> s.sent[n] == FailureReport(s.outcome.error))
      && (s.outcome.Recovered? <==> tr(n + (if ParseStatus(ts[n]).Ok? then 1 else 0)) == Delivered)
      && s.cursor == cursor
  {
    var hs := CheckResponse(reply.body).value;
    var d := Dispatch(hs, tr, 0);
    DispatchStopsAtFirstFailure(hs, tr, 0);
    assert d.fault.Some?;
    assert Iterate(cursor, now, reply, tr) == Fail(FromDate(cursor, now), d.sent, cursor, d.fault.value, tr, d.attempts);
    ReportAfterFailure(d, Truthies(hs), tr, FromDate(cursor, now), cursor);
  }

  /** A reply that cannot be fetched or does not validate notifies no
      homework: at most the failure report for its exception is sent, as the
      first send attempt, and the cursor is unchanged. */
  lemma IterateRejectsBadReply(cursor: Json, now: int, reply: FetchResult, tr: Transport)
    requires !reply.Fetched? || CheckResponse(reply.body).Err?
    ensures var s := Iterate(cursor, now, reply, tr);
      var e := if reply.Fetched? then CheckResponse(reply.body).error else FetchError(reply);
      && !s.outcome.Completed?
      && s.outcome.error == e
      && s.cursor == cursor
      && (s.outcome.Recovered? <==> tr(0) == Delivered)
      && s.sent == (if tr(0) == Delivered then [FailureReport(e)] else [])
  {
  }

  /** A falsy entry (`None`, `{}`, `[]`, `""`, `0`, `false`) anywhere in the
      `homeworks` list changes nothing about a pass: no message, no send
      attempt, no failure. */
  lemma FalsyEntryIgnored(cursor: Json, now: int, fields: map<string, Json>,
                          a: seq<Json>, falsy: Json, b: seq<Json>, tr: Transport)
    requires !Truthy(falsy)
    ensures Iterate(cursor, now, Fetched(JDict(fields["homeworks" := JList(a + [falsy] + b)])), tr)
         == Iterate(cursor, now, Fetched(JDict(fields["homeworks" := JList(a + b)])), tr)
  {
    TruthiesAppend(a + [falsy], b);
    TruthiesAppend(a, [falsy]);
    TruthiesAppend(a, b);
    assert Truthies([falsy]) == [] by {
      assert [falsy][1..] == [];
    }
    assert Truthies(a + [falsy] + b) == Truthies(a + b);
    DispatchSeesOnlyTruthy(a + [falsy] + b, tr, 0);
    DispatchSeesOnlyTruthy(a + b, tr, 0);
  }

  /** After a completed pass, the next request asks from the reply's
      `current_date` when it is truthy, and from the clock of the next pass
      when it is absent, null, 0 or otherwise falsy. */
  lemma NextRequestAfterCompletedPass(cursor: Json, now: int, reply: FetchResult, tr: Transport,
                                      later: int, reply': FetchResult, tr': Transport)
    requires Iterate(cursor, now, reply, tr).outcome.Completed?
    ensures reply.Fetched? && reply.body.JDict?
    ensures var date := Get(reply.body.fields, "current_date");
      var next := Iterate(Iterate(cursor, now, reply, tr).cursor, later, reply', tr').request;
      && (Truthy(date) ==> next == date)
      && (!Truthy(date) ==> next == JInt(later))
      && ("current_date" !in reply.body.fields ==> next == JInt(later))
  {
  }

  /** After a pass that does not complete, the next request asks from the
      same cursor, so from the clock again when that cursor is falsy. */
  lemma NextRequestAfterFailedPass(cursor: Json, now: int, reply: FetchResult, tr: Transport,
                                   later: int, reply': FetchResult, tr': Transport)
    requires !Iterate(cursor, now, reply, tr).outcome.Completed?
    ensures Iterate(Iterate(cursor, now, reply, tr).cursor, later, reply', tr').request
      == FromDate(cursor, later)
  {
  }

  // ---------------------------------------------------------------------
  // The loop and the start-up check
  // ---------------------------------------------------------------------

  /** The inputs of one pass: the clock reading, the reply of the API and the
      chat transport. */
  datatype Tick = Tick(now: int, reply: FetchResult, transport: Transport)

  /** A finite run of the loop: the `from_date` of every request, every
      message delivered, the cursor at the end, and whether the process is
      still running. */
  datatype Trace = Trace(requests: seq<Json>, sent: seq<string>, cursor: Json, alive: bool)

  /** The pass a tick drives from `cursor`. */
  function Pass(cursor: Json, tick: Tick): Step
  {
    Iterate(cursor, tick.now, tick.reply, tick.transport)
  }

  /** Runs `pass` once per tick, threading the cursor, until the ticks run
      out or a pass crashes. */
  function Loop(pass: (Json, Tick) -> Step, cursor: Json, ticks: seq<Tick>): (t: Trace)
    ensures |t.requests| <= |ticks|
    ensures t.alive ==> |t.requests| == |ticks|
    ensures !t.alive ==> 1 <= |t.requests|
    decreases |ticks|
  {
    if ticks == [] then Trace([], [], cursor, true)
    else
      var s := pass(cursor, ticks[0]);
      if s.outcome.Crashed? then Trace([s.request], s.sent, s.cursor, false)
      else
        var t := Loop(pass, s.cursor, ticks[1..]);
        Trace([s.request] + t.requests, s.sent + t.sent, t.cursor, t.alive)
  }

  /** A loop whose first pass does not crash is that pass followed by the
      loop over the remaining ticks. */
  lemma LoopCons(pass: (Json, Tick) -> Step, cursor: Json, ticks: seq<Tick>)
    requires ticks != [] && !pass(cursor, ticks[0]).outcome.Crashed?
    ensures var s := pass(cursor, ticks[0]);
      var t := Loop(pass, s.cursor, ticks[1..]);
      Loop(pass, cursor, ticks) == Trace([s.request] + t.requests, s.sent + t.sent, t.cursor, t.alive)
  {
  }

  /** A loop splits at any point where the process is still running: the
      second part starts from the cursor the first part ends with. */
  lemma {:induction false} LoopComposes(pass: (Json, Tick) -> Step, cursor: Json, a: seq<Tick>, b: seq<Tick>)
    requires Loop(pass, cursor, a).alive
    ensures var ta := Loop(pass, cursor, a);
      var tb := Loop(pass, ta.cursor, b);
      Loop(pass, cursor, a + b) == Trace(ta.requests + tb.requests, ta.sent + tb.sent, tb.cursor, tb.alive)
    decreases |a|
  {
    if a == [] {
      assert a + b == b;
    } else {
      var s := pass(cursor, a[0]);
      LoopCons(pass, cursor, a);
      assert (a + b)[0] == a[0] && (a + b)[1..] == a[1..] + b;
      LoopCons(pass, cursor, a + b);
      LoopComposes(pass, s.cursor, a[1..], b);
      var t1 := Loop(pass, s.cursor, a[1..]);
      var t2 := Loop(pass, t1.cursor, b);
      ConcatAssoc([s.request], t1.requests, t2.requests);
      ConcatAssoc(s.sent, t1.sent, t2.sent);
    }
  }

  /** A pass that crashes ends the loop: its request and the messages it
      delivered are the last ones, and no later tick is requested or sent. */
  lemma LoopEndsAtCrash(pass: (Json, Tick) -> Step, cursor: Json, a: seq<Tick>, t: Tick, b: seq<Tick>)
    requires Loop(pass, cursor, a).alive && pass(Loop(pass, cursor, a).cursor, t).outcome.Crashed?
    ensures var ta := Loop(pass, cursor, a);
      var s := pass(ta.cursor, t);
      Loop(pass, cursor, a + [t] + b) == Trace(ta.requests + [s.request], ta.sent + s.sent, s.cursor, false)
  {
    assert a + [t] + b == a + ([t] + b);
    LoopComposes(pass, cursor, a, [t] + b);
    assert ([t] + b)[0] == t;
  }

  /** The main loop over finitely many ticks. It stops early only when a pass
      crashes; otherwise it makes one request per tick. */
  function Run(cursor: Json, ticks: seq<Tick>): (t: Trace)
    ensures t.alive ==> |t.requests| == |ticks|
    ensures !t.alive ==>
      1 <= |t.requests| <= |ticks|
      && Pass(Loop(Pass, cursor, ticks[..|t.requests| - 1]).cursor, ticks[|t.requests| - 1]).outcome.Crashed?
  {
    LoopStopsAtCrash(Pass, cursor, ticks);
    Loop(Pass, cursor, ticks)
  }

  /** A loop that stops early stops at a crashing pass, run from the cursor
      its preceding passes left. */
  lemma {:induction false} LoopStopsAtCrash(pass: (Json, Tick) -> Step, cursor: Json, ticks: seq<Tick>)
    ensures var t := Loop(pass, cursor, ticks);
      !t.alive ==> pass(Loop(pass, cursor, ticks[..|t.requests| - 1]).cursor, ticks[|t.requests| - 1]).outcome.Crashed?
    decreases |ticks|
  {
    if ticks != [] {
      var s := pass(cursor, ticks[0]);
      var t := Loop(pass, cursor, ticks);
      if !s.outcome.Crashed? && !t.alive {
        LoopStopsAtCrash(pass, s.cursor, ticks[1..]);
        var n := |t.requests| - 1;
        assert ticks[..n][1..] == ticks[1..][..n - 1];
        assert ticks[..n] != [] && ticks[..n][0] == ticks[0];
        assert ticks[1..][n - 1] == ticks[n];
      }
    }
  }

  /** A run splits at any point where the bot is still running. */
  lemma RunComposes(cursor: Json, a: seq<Tick>, b: seq<Tick>)
    requires Run(cursor, a).alive
    ensures var ta := Run(cursor, a);
      var tb := Run(ta.cursor, b);
      Run(cursor, a + b) == Trace(ta.requests + tb.requests, ta.sent + tb.sent, tb.cursor, tb.alive)
  {
    LoopComposes(Pass, cursor, a, b);
  }

  /** A pass whose failure report cannot be sent ends the bot: whatever
      ticks follow, the run stops right after that pass. */
  lemma RunEndsAtCrash(cursor: Json, a: seq<Tick>, t: Tick, b: seq<Tick>)
    requires Run(cursor, a).alive && Pass(Run(cursor, a).cursor, t).outcome.Crashed?
    ensures var ta := Run(cursor, a);
      var s := Pass(ta.cursor, t);
      Run(cursor, a + [t] + b) == Trace(ta.requests + [s.request], ta.sent + s.sent, s.cursor, false)
  {
    LoopEndsAtCrash(Pass, cursor, a, t, b);
  }

  /** A loop whose every pass from `cursor` leaves the cursor where it was
      never moves it, and each request is the one its pass makes from there. */
  lemma {:induction false} LoopKeepsCursor(pass: (Json, Tick) -> Step, cursor: Json, ticks: seq<Tick>)
    requires forall i :: 0 <= i < |ticks| ==> pass(cursor, ticks[i]).cursor == cursor
    ensures Loop(pass, cursor, ticks).cursor == cursor
    ensures forall i :: 0 <= i < |Loop(pass, cursor, ticks).requests| ==>
      Loop(pass, cursor, ticks).requests[i] == pass(cursor, ticks[i]).request
    decreases |ticks|
  {
    if ticks != [] && !pass(cursor, ticks[0]).outcome.Crashed? {
      assert forall i :: 0 <= i < |ticks[1..]| ==> ticks[1..][i] == ticks[i + 1];
      LoopKeepsCursor(pass, cursor, ticks[1..]);
      var t := Loop(pass, cursor, ticks[1..]);
      forall i | 1 <= i < |Loop(pass, cursor, ticks).requests|
        ensures Loop(pass, cursor, ticks).requests[i] == pass(cursor, ticks[i]).request
      {
        assert Loop(pass, cursor, ticks).requests[i] == t.requests[i - 1];
        assert ticks[1..][i - 1] == ticks[i];
      }
    }
  }

  /** While no pass completes the cursor never moves: every request asks
      from the start cursor, or from its own clock when that cursor is falsy. */
  lemma FailingPassesKeepCursor(cursor: Json, ticks: seq<Tick>)
    requires forall i :: 0 <= i < |ticks| ==> !Pass(cursor, ticks[i]).outcome.Completed?
    ensures Run(cursor, ticks).cursor == cursor
    ensures forall i :: 0 <= i < |Run(cursor, ticks).requests| ==>
      Run(cursor, ticks).requests[i] == FromDate(cursor, ticks[i].now)
  {
    LoopKeepsCursor(Pass, cursor, ticks);
  }

  /** Once a completed pass leaves a falsy `current_date` as the cursor,
      every request up to the next completed pass asks from that request's
      own clock reading. */
  lemma ClockFallbackUntilNextCompletedPass(cursor: Json, first: Tick, ticks: seq<Tick>)
    requires Pass(cursor, first).outcome.Completed? && !Truthy(Pass(cursor, first).cursor)
    requires forall i :: 0 <= i < |ticks| ==> !Pass(Pass(cursor, first).cursor, ticks[i]).outcome.Completed?
    ensures Run(cursor, [first] + ticks).cursor == Pass(cursor, first).cursor
    ensures |Run(cursor, [first] + ticks).requests| == 1 + |Run(Pass(cursor, first).cursor, ticks).requests|
    ensures forall i :: 1 <= i < |Run(cursor, [first] + ticks).requests| ==>
      Run(cursor, [first] + ticks).requests[i] == JInt(ticks[i - 1].now)
  {
    var c := Pass(cursor, first).cursor;
    LoopCons(Pass, cursor, [first] + ticks);
    FailingPassesKeepCursor(c, ticks);
    assert ([first] + ticks)[1..] == ticks;
  }

  /** The session of the bot: it exits before the loop when a token is
      unset, and otherwise runs the loop from the start time. */
  datatype Session = Exited | Ran(trace: Trace)

  /** `main`: check the tokens, then loop with the start time as cursor. A
      missing token ends the process before any request is made. */
  function Start(tokens: Tokens, startTime: int, ticks: seq<Tick>): (r: Session)
    ensures r.Exited? <==> tokens.practicum.None? || tokens.telegram.None? || tokens.chatId.None?
    ensures r.Ran? && |ticks| > 0 ==>
      |r.trace.requests| > 0 && r.trace.requests[0] == FromDate(JInt(startTime), ticks[0].now)
  {
    if CheckTokens(tokens) then Ran(Run(JInt(startTime), ticks)) else Exited
  }

  /** A worked example: one approved homework "A" and a
      `current_date` of 1000 give exactly one notification and move the cursor
      to 1000, which the next request then uses. */
  lemma SingleApprovedHomework(cursor: Json, now: int, later: int, reply': FetchResult, tr': Transport)
    ensures var h := JDict(map["homework_name" := JStr("A"), "status" := JStr("approved")]);
      var body := JDict(map["homeworks" := JList([h]), "current_date" := JInt(1000)]);
      var s := Iterate(cursor, now, Fetched(body), (n: nat) => Delivered);
      && s.outcome == Completed
      && s.sent == [Notice("A", "approved")]
      && s.cursor == JInt(1000)
      && Iterate(s.cursor, later, reply', tr').request == JInt(1000)
  {
    var h := JDict(map["homework_name" := JStr("A"), "status" := JStr("approved")]);
    var body := JDict(map["homeworks" := JList([h]), "current_date" := JInt(1000)]);
    var tr: Transport := (n: nat) => Delivered;
    assert CheckResponse(body) == Ok([h]);
    assert ParseStatus(h) == Ok(Notice("A", "approved"));
    assert Truthies([h]) == [h] by {
      assert [h][1..] == [];
    }
    assert AllNotified(Fetched(body), tr);
    IterateNotifiesInOrder(cursor, now, Fetched(body), tr);
  }
}

=== FILE: results.dfy ===
/**
  Failure values of the bot. The Python code signals every failure by raising
  an exception; here each raised exception is a `PyError` value carried by a
  `Result`, and `Render` is what Python's `str()` prints for it (the text the
  bot puts into its failure report).
 */
module Results {

  /** Present-or-absent value, used for the optional environment tokens. */
  datatype Option<+T> = None | Some(value: T)

  /** The exceptions the modelled code can raise, each with its argument. */
  datatype PyError =
    | TypeError(message: string)
    | KeyError(message: string)
    | AttributeError(message: string)
    | ConnectionError(message: string)
    | NotStatusOk(message: string)
      /** An exception raised by a collaborator (HTTP client, JSON decoder,
          chat transport) whose text the model receives as an input. */
    | External(message: string)

  /** Python's `str(error)`. A `KeyError` prints the `repr` of its argument,
      so its message appears between single quotes; every other exception
      prints its argument as is. The quoting is exact for messages without
      quote or backslash characters, which holds for every message the bot
      itself raises. */
  function Render(e: PyError): string
  {
    match e
    case KeyError(m) => "'" + m + "'"
    case TypeError(m) => m
    case AttributeError(m) => m
    case ConnectionError(m) => m
    case NotStatusOk(m) => m
    case External(m) => m
  }

  /** Either the value a Python function returns or the exception it raises. */
  datatype Result<+T> = Ok(value: T) | Err(error: PyError)
}
